=== FILE: README.md ===
# ScotlandYard position estimator, modelled in Dafny

ScotlandYard is a small Qt helper for the detectives of the board game
"Scotland Yard". Given the last location where Mr. X was seen and the tickets
he has used since, it estimates where he is now. The estimator keeps a
*frontier*: a map from candidate nodes to weights. It starts with the last
location at weight 1. Each ticket replaces the frontier by the nodes that
ticket reaches from it. The final weights become percentages, listed from
the most to the least likely node.

This project models that core as pure functions and small methods:

- `text.dfy` (module `Text`): the QString operations the estimator relies
  on. These are `trimmed`, `split(",")`, removal of a `^0*` prefix,
  `QString::number` and `toInt`.
- `comma_list.dfy` (module `CommaList`): the language `item(, ?item)*` that
  both entry validators accept. It is written as a recursive predicate
  instead of a regular expression.
- `tickets.dfy` (module `Tickets`): the ticket entry. This covers its
  validator, how the calculation reads it, and the append done by the four
  ticket buttons.
- `graph.dfy` (modules `Json` and `TransportGraph`): the transport graph as
  the members of a parsed JSON object, `getConnections`, and the
  consistency scan run after loading.
- `frontier.dfy` (module `Frontier`): the Calculate button. This covers the
  initial frontier, the per-ticket step, the total, the percentages and the
  ranking.
- `detective_input.dfy` (module `DetectiveInput`): the detective position
  entry, read as a set of integers.
- `scenarios.dfy` (module `Scenarios`): worked examples on a three-node
  board.

The source visits `QMap` contents in key order and `QSet` contents in an
order Qt leaves unspecified. The methods that do the same (`Frontier.Step`,
`Frontier.SumWeights`, `Frontier.Rank`, `TransportGraph.CheckMode`,
`TransportGraph.CheckNode`) pick the next element with `:|`. Their contracts
therefore hold for every visiting order, the source's among them.

## Behaviour worth knowing

- Step weights count source nodes, not paths. Each (frontier node,
  neighbour) pair adds 1 (MainWindow.cpp:119-125), so a node's new weight is
  the number of current frontier nodes that reach it, and the current
  weights play no part. `Frontier.Step`, `Frontier.SingleSourceStep` and
  `Scenarios.FromOne` state this.
- A black ticket reaches the node's own `black` list together with its
  taxi, bus and train lists (MainWindow.cpp:111-117). `TransportGraph.Reach`
  and `TransportGraph.BlackReachesEveryMode` state this.
- Entries with equal percentages come out in an order fixed by `QMap` key
  order and `QMultiMap` insertion order (MainWindow.cpp:134-156). The model
  promises only a non-increasing order.
- The consistency scan visits the ids 1 to 198, whatever nodes the graph
  holds (MainWindow.cpp:235). A node "199" or a non-numeric id is never
  scanned; `TransportGraph.Id199NotChecked` states this.
- A graph that fails to load switches the Calculate button off
  (MainWindow.cpp:207 and 221), but only until the next edit of either
  entry: `updateGUIState` (MainWindow.cpp:175-184) runs on every change
  (163-172) and enables the button again for an accepted ticket text and a
  non-empty location. The graph then stays empty, so every calculation ends
  in an empty frontier and lists nothing; `Frontier.EmptyGraphLeavesNothing`
  states this. `TransportGraph.AnalysisDisabled` records the failed load
  only.
- An empty location or ticket entry does not give an empty result. It gives
  the "more information" message (MainWindow.cpp:78-82), modelled as
  `Frontier.MoreInformationNeeded`.

## Model

| member | source | states |
|---|---|---|
| Text.Trim | MainWindow.cpp:99 | The trimmed text is no longer than the input, and it neither starts nor ends with a QChar::isSpace character. |
| Text.TrimIsInnerSlice | MainWindow.cpp:99 | The trimmed text is a slice of the input with only white space before and after it, so nothing but surrounding white space is removed. |
| Text.TrimTrailingSpace | MainWindow.cpp:99 | A white-space character at the end of a text does not change its trimmed form. |
| Text.StripLeadingZeros | MainWindow.cpp:87 | The result is a suffix of the input. Every removed character is '0', and the result does not start with '0'. |
| Text.StripLeadingZerosPrefix | MainWindow.cpp:87 | Zeros put in front of a text are removed along with its own leading zeros. |
| Text.Split | MainWindow.cpp:97 | Splitting always gives at least one piece, and no piece holds the separator. |
| Text.JoinSplit | MainWindow.cpp:97 | Joining the pieces of a split with the separator gives back the original text. |
| Text.SplitJoin | MainWindow.cpp:97 | Splitting a list joined with the separator gives back the list when no part holds the separator. |
| Text.FieldsConcat | MainWindow.cpp:96-100 | The split-and-trim fields on either side of a comma come one after the other. |
| Text.NatToDecimal | MainWindow.cpp:237 | QString::number gives a non-empty digit string without a leading zero that reads back as the same number. |
| Text.ToInt | DetectiveInput.cpp:36 | A trimmed digit run, with or without a leading '+', converts to its decimal value. Any text that is not a signed or unsigned digit run after trimming, blank text included, converts to 0. A negative value comes only from text starting with '-'. |
| Text.IntToDecimalRoundTrip | MainWindow.cpp:237 | The text QString::number gives for any integer, negative ones included, converts back to that integer through toInt. |
| Text.StripLeadingZerosValue | DetectiveInput.cpp:35 | Removing leading zeros keeps a digit string's decimal value. |
| CommaList.Accepts | MainWindow.cpp:30 | An accepted text, for the ticket pattern here and the digit pattern of DetectiveInput.cpp:16, is non-empty and neither starts nor ends with a comma or a space. |
| CommaList.AcceptsJoin | MainWindow.cpp:30 | `a + ", " + b` is accepted exactly when both `a` and `b` are. |
| CommaList.AcceptsCommaJoin | MainWindow.cpp:30 | The space after a comma is optional: two accepted lists joined by a bare comma are accepted, for the ticket pattern and the digit pattern of DetectiveInput.cpp:16 alike. |
| CommaList.AcceptedFieldsAreItems | MainWindow.cpp:30 | Every split-and-trim field of an accepted text is an item of the language. |
| CommaList.JoinAccepted | MainWindow.cpp:30 | Items joined with ", " form an accepted text. |
| CommaList.JoinFields | MainWindow.cpp:96-100 | Items joined with ", " read back as the same items, in order. |
| Tickets.ParseTickets | MainWindow.cpp:96-100 | The ticket queue is never empty, even for an empty text. |
| Tickets.TicketsInOrder | MainWindow.cpp:96-100 | The tickets keep the order of the text: those before a comma come before those after it. |
| Tickets.AppendTicket | MainWindow.cpp:187-197 | An empty entry becomes the ticket if that alone is accepted, and stays empty otherwise. A non-empty entry becomes `entry + ", " + ticket` when both parts are accepted, and stays unchanged otherwise. |
| Tickets.AppendTicketGrows | MainWindow.cpp:187-197 | Appending a ticket name to an empty or accepted entry always commits and keeps the entry accepted. The ticket queue grows by exactly that ticket. |
| Tickets.EntryTicketsAreTokens | MainWindow.cpp:30 | Every ticket read from an accepted entry is taxi, bus, train or black. |
| Tickets.TicketsRoundTrip | MainWindow.cpp:96-100 | Ticket names joined with ", " form an accepted entry that reads back as the same tickets. |
| Json.ToText | MainWindow.cpp:273-274 | A string element gives its own text, and a null, array or object element gives the empty text. |
| Json.NumberTextRoundTrip | MainWindow.cpp:273-274 | The text of a number element converts back to that number through toInt. |
| TransportGraph.Texts | MainWindow.cpp:273-274 | The set of element texts has at most one member per element, and it holds exactly the texts of the elements. |
| TransportGraph.Connections | MainWindow.cpp:255-277 | The result is empty when the node is missing or not an object, or when the mode is missing or not an array. Otherwise it is exactly the texts of the listed elements, with duplicates collapsed. |
| TransportGraph.BlackReachesEveryMode | MainWindow.cpp:111-117 | A black ticket reaches a node exactly when one of the four mode lists holds it. |
| TransportGraph.Id199NotChecked | MainWindow.cpp:235-237 | The scanned ids include "1" and "198" but not "199". |
| TransportGraph.NoDiagnosticsIffConsistent | MainWindow.cpp:235-251 | The scan is silent exactly when every listed edge of a scanned node is irreflexive and listed back. |
| TransportGraph.CheckMode | MainWindow.cpp:241-249 | For one node and mode, warnings are issued exactly for a self-listing and for each neighbour that does not list the node back, each warning once. |
| TransportGraph.CheckNode | MainWindow.cpp:239-250 | For one node, warnings are issued exactly for its defects under the four modes, each warning once. |
| TransportGraph.CheckConsistency | MainWindow.cpp:228-251 | Warnings are issued exactly for the defects of ids 1..198 under the four modes, each warning once. |
| TransportGraph.InitializeGraph | MainWindow.cpp:200-252 | The load fails, and the Calculate button is switched off until the next edit, exactly when the document cannot be read or parsed, or its root is not an object. Otherwise the graph is the root object, unchanged whatever the scan reports, together with exactly the flagged warnings. |
| Frontier.InitialFrontier | MainWindow.cpp:86-91 | The initial frontier holds exactly one node, the location without leading zeros, with weight 1. |
| TransportGraph.Reach | MainWindow.cpp:111-117 | A node the graph does not describe as an object reaches nothing. The ticket's own list is always reached, and a ticket other than black reaches nothing else. |
| Frontier.NextFrontier | MainWindow.cpp:107-127 | Every weight of the next frontier is at least 1, since a node enters only when some current node reaches it. |
| Frontier.NextFrontierBound | MainWindow.cpp:107-127 | No weight of the next frontier exceeds the number of nodes in the current frontier, since each current node adds at most 1 to a node. |
| Frontier.NextFrontierAt | MainWindow.cpp:107-127 | A node is in the next frontier exactly when some current node reaches it. Its weight is the number of those nodes. |
| Frontier.CountsGrow | MainWindow.cpp:119-125 | Adding 1 for each node one more frontier node reaches keeps every weight equal to the number of visited nodes that reach it. |
| Frontier.Step | MainWindow.cpp:107-127 | The new frontier holds exactly the nodes some current node reaches. Each weight is the number of current nodes that reach it. |
| Frontier.SingleSourceStep | MainWindow.cpp:111-125 | From a single frontier node of any weight, every reached node gets weight 1, even one reached through several modes of a black ticket. |
| Frontier.BlackWeightCountsSources | MainWindow.cpp:111-125 | Under a black ticket, a node's weight is the number of frontier nodes that list it under at least one mode. |
| Frontier.Propagate | MainWindow.cpp:102-128 | With no ticket the frontier is unchanged. After at least one ticket, every weight is at least 1. |
| Frontier.Run | MainWindow.cpp:102-128 | The ticket loop gives the frontier of the tickets taken one by one, in order. |
| Frontier.PropagateSnoc | MainWindow.cpp:102-128 | One more ticket is one more step on the frontier reached so far. |
| Frontier.PropagatePositive | MainWindow.cpp:119-127 | Every weight stays at least 1. |
| Frontier.DeadEndStays | MainWindow.cpp:102-128 | Once the frontier is empty, it stays empty. |
| Frontier.UnknownStartLeavesNothing | MainWindow.cpp:259-264 | A start node that the graph does not describe as an object leaves an empty frontier after the first ticket. |
| Frontier.EmptyGraphLeavesNothing | MainWindow.cpp:86-128 | On the empty graph a failed load leaves behind, every location and ticket text ends in an empty frontier. |
| Frontier.WeightAtMostTotal | MainWindow.cpp:130-132 | No weight exceeds the total, and a non-empty frontier of positive weights has a positive total. |
| Frontier.SumWeights | MainWindow.cpp:130-132 | The summing loop computes the total of all weights, whatever the order. |
| Frontier.InsertDescending | MainWindow.cpp:142-156 | Insertion keeps the list in non-increasing order and adds exactly the new entry. |
| Frontier.RankStep | MainWindow.cpp:136-143 | Inserting one more node's entry keeps the partial ranking. |
| Frontier.Rank | MainWindow.cpp:134-156 | The listing holds one entry per frontier node, in non-increasing order, each at weight / total * 100. |
| Frontier.Calculate | MainWindow.cpp:76-160 | More information is asked for exactly when an entry is empty. Otherwise the result ranks the frontier reached from the stripped location through the trimmed tickets, in order. |
| Frontier.PercentSum | MainWindow.cpp:141 | Percentages of a set of nodes add up to the percentage of their summed weight. |
| Frontier.RankingSumsTo100 | MainWindow.cpp:130-143 | The percentages of a non-empty frontier add up to 100. |
| Frontier.RankingBounds | MainWindow.cpp:130-143 | Every percentage lies in (0, 100]. |
| Frontier.EmptyRanking | MainWindow.cpp:134-156 | An empty frontier gives an empty listing, so nothing is divided. |
| Frontier.SingleRanking | MainWindow.cpp:134-156 | A frontier with one node lists that node at 100 percent. |
| Frontier.NoTicketsRanking | MainWindow.cpp:102-143 | With an empty ticket queue, the start node is listed alone at 100 percent. The Calculate button never reaches this case, because splitting the ticket text always gives at least one ticket. |
| DetectiveInput.PositionOf | DetectiveInput.cpp:33-36 | An item whose trimmed text is a non-empty digit run converts to its decimal value, and an item that is zeros only, or blank, after trimming converts to 0. |
| DetectiveInput.DetectivePositions | DetectiveInput.cpp:27-40 | There are never more positions than comma-separated items. A value is a position exactly when some item converts to it. |
| DetectiveInput.Converted | DetectiveInput.cpp:32-37 | There is one converted value per item, in order. |
| DetectiveInput.Distinct | DetectiveInput.cpp:29-36 | The set holds exactly the values of the list, with at most one member per element. |
| DetectiveInput.LeadingZerosIgnored | DetectiveInput.cpp:34-36 | Zeros in front of a digit run give the same position. |
| DetectiveInput.AllZerosIsZero | DetectiveInput.cpp:35-36 | An item that is all zeros after trimming is position 0. |
| DetectiveInput.ZerosExamples | DetectiveInput.cpp:35-36 | "007" and "7" are both 7, and "000" is 0. |
| DetectiveInput.SpaceAroundItem | DetectiveInput.cpp:34 | A white-space character (any QChar::isSpace character) before or after an item does not change its position. |
| DetectiveInput.DigitItemValue | DetectiveInput.cpp:34-36 | A trimmed non-empty digit run converts to its decimal value. |
| DetectiveInput.AcceptedPositions | DetectiveInput.cpp:16 | For accepted text, every field is a non-empty digit run. The positions are exactly the fields' decimal values, all non-negative. |
| DetectiveInput.AppendItem | DetectiveInput.cpp:30-37 | One more item adds exactly its position to the set. |
| DetectiveInput.RepeatCollapses | DetectiveInput.cpp:29-36 | Entering a position that is already listed leaves the set unchanged. |
| Scenarios.FromOne | MainWindow.cpp:119-125 | One taxi from node 1 gives nodes 2 and 3 weight 1 each, whatever the weight of node 1. |
| Scenarios.OneTaxi | MainWindow.cpp:102-128 | On the three-node board, one taxi from 1 gives the frontier {2: 1, 3: 1}. |
| Scenarios.EvenPairRanking | MainWindow.cpp:130-156 | Two nodes of weight 1 are listed at 50 percent each. |
| Scenarios.OneTaxiRanking | MainWindow.cpp:76-160 | One taxi from 1 on the board lists nodes 2 and 3 at 50 percent each. |
| Scenarios.UnknownStart | MainWindow.cpp:259-264 | Starting from node 99, which is not on the board, one taxi leaves no position. |

## Left out

- Qt widgets, slots, `updateGUIState`, the reset button, the message boxes
  and the `QIntValidator` range 1..199 on the location entry are UI. The
  location and the ticket text are plain parameters of `Frontier.Calculate`.
- Reading the graph file and parsing its JSON text are left out. A
  `TransportGraph.Document` stands in for them: unreadable, malformed or
  parsed. JSON numbers are taken to be integers.
- Json.ToText: a number is written in plain decimal. The source converts it
  to a double and formats that, so a number too large for a double to hold
  exactly, or one the double formatting writes with an exponent, reads
  differently there. Node ids are small integers, which both write alike.
- The `qWarning` output is left out. `getConnections` writes it for an
  undefined node, and the scan writes each warning as text. The scan's
  warnings are returned as `TransportGraph.Diagnostic` values.
- `qreal` arithmetic is replaced by exact `real` division. The result text
  (`leftJustified`, `QString::number` of a percentage) is not produced; the
  listing is a sequence of `Frontier.Entry` values.
- Frontier.Rank: the order of entries with equal percentages is left open,
  because the source's order depends on `QMap` key order and on `QMultiMap`
  insertion order.
- Text.ToInt: integers are unbounded, so `toInt`'s failure on values beyond
  32 bits is not modelled.
- Text.IsSpace: the white-space set is QChar::isSpace as documented for
  Unicode categories Zs, Zl and Zp plus the listed controls. Characters
  outside the Basic Multilingual Plane are not considered.
- The regular-expression engines are replaced by `CommaList.Accepts`.
  `QValidator::Intermediate` states are not modelled, because the append and
  the Calculate button act only on Acceptable text.
- Frontier.Calculate: it does not require a valid ticket entry, because the
  slot itself does not check the entry. Any ticket text is used as a mode
  key.
- MainWindow.h and DetectiveInput.h hold only declarations. The
  `DetectiveInput` constructor's labels are UI, and `_detectiveInputs` is
  never used.

=== FILE: comma_list.dfy ===
/**
 The language `item(, ?item)*` shared by the two entry validators: the ticket
 entry (`(taxi|bus|train|black)` items) and the detective position entry
 (`[0-9]+` items). It is written here as a recursive predicate that reads up
 to the first comma, in place of a regular-expression engine.
 */
module CommaList {
  import opened Text

  /** The two item languages: `taxi|bus|train|black` and `[0-9]+`. */
  datatype ItemKind = TicketToken | DigitRun

  predicate IsTicketToken(s: string) {
    s == "taxi" || s == "bus" || s == "train" || s == "black"
  }

  predicate IsItem(kind: ItemKind, s: string) {
    match kind
    case TicketToken => IsTicketToken(s)
    case DigitRun => |s| > 0 && IsDigits(s)
  }

  /** Index of the first comma of `s`, or `|s|` when there is none. */
  function FirstComma(s: string): (i: nat)
    ensures i <= |s|
    ensures forall j :: 0 <= j < i ==> s[j] != ','
    ensures i < |s| ==> s[i] == ','
  {
    if |s| == 0 || s[0] == ',' then 0 else 1 + FirstComma(s[1..])
  }

  /** `s` is a non-empty list of items separated by a comma and at most one
      space. */
  predicate Accepts(s: string, kind: ItemKind)
    ensures Accepts(s, kind) ==> |s| > 0 && ItemEdge(s[0]) && ItemEdge(s[|s| - 1])
    decreases |s|
  {
    var i := FirstComma(s);
    ItemEdges(kind, s[..i]);
    AfterCommaIsSuffix(s, i);
    IsItem(kind, s[..i]) && (i == |s| || Accepts(SkipSpace(s[i + 1..]), kind))
  }

  /** The whole text when there is no comma; otherwise what follows the
      comma is a tail of the text. */
  lemma AfterCommaIsSuffix(s: string, i: nat)
    requires i <= |s|
    ensures i == |s| ==> s[..i] == s
    ensures i < |s| ==> SkipSpace(s[i + 1..]) == s[|s| - |SkipSpace(s[i + 1..])|..]
  {
  }

  /** Neither a comma nor a space: what an item starts and ends with. */
  predicate ItemEdge(c: char) {
    c != ',' && c != ' '
  }

  /** An item is non-empty and neither starts nor ends with a comma or a
      space. */
  lemma ItemEdges(kind: ItemKind, x: string)
    ensures IsItem(kind, x) ==> |x| > 0 && ItemEdge(x[0]) && ItemEdge(x[|x| - 1])
  {
  }

  /** What follows a comma, with the one optional space dropped. */
  function SkipSpace(rest: string): (r: string)
    ensures |r| <= |rest|
  {
    if |rest| > 0 && rest[0] == ' ' then rest[1..] else rest
  }

  /** One step of `Accepts`, at a given first comma. */
  lemma {:induction false} AcceptsAt(s: string, i: nat, kind: ItemKind)
    requires i == FirstComma(s)
    ensures i == |s| ==> (Accepts(s, kind) <==> IsItem(kind, s))
    ensures i < |s| ==> (Accepts(s, kind) <==> IsItem(kind, s[..i]) && Accepts(SkipSpace(s[i + 1..]), kind))
  {
    if i == |s| {
      assert s[..i] == s;
      assert Accepts(s, kind) == IsItem(kind, s[..i]);
    } else {
      assert Accepts(s, kind) == (IsItem(kind, s[..i]) && Accepts(SkipSpace(s[i + 1..]), kind));
    }
  }

  /** The first comma of a concatenation lies in the first part when that
      part has one. */
  lemma FirstCommaConcat(a: string, b: string)
    ensures FirstComma(a) < |a| ==> FirstComma(a + b) == FirstComma(a)
    ensures FirstComma(a) == |a| ==> FirstComma(a + b) == |a| + FirstComma(b)
  {
    var i := FirstComma(a);
    var j := FirstComma(a + b);
    if i < |a| {
      assert (a + b)[i] == ',';
    } else {
      var k := FirstComma(b);
      assert forall m :: 0 <= m < |a| + k ==> (a + b)[m] != ',' by {
        forall m | 0 <= m < |a| + k
          ensures (a + b)[m] != ','
        {
          if m >= |a| {
            assert (a + b)[m] == b[m - |a|];
          }
        }
      }
      if k < |b| {
        assert (a + b)[|a| + k] == ',';
      }
    }
  }

  /** Appending `", " + b` to `a` gives an accepted list exactly when both
      `a` and `b` are accepted lists: the language is closed under joining,
      and a joined list can only come from two accepted halves. */
  lemma {:induction false} AcceptsJoin(a: string, b: string, kind: ItemKind)
    ensures Accepts(a + ", " + b, kind) <==> Accepts(a, kind) && Accepts(b, kind)
    decreases |a|
  {
    var s := a + ", " + b;
    var i := FirstComma(a);
    FirstCommaConcat(a, ", " + b);
    assert s == a + (", " + b);
    AcceptsAt(a, i, kind);
    if i == |a| {
      assert FirstComma(", " + b) == 0;
      AcceptsAt(s, |a|, kind);
      assert s[..|a|] == a;
      assert SkipSpace(s[|a| + 1..]) == b;
    } else {
      AcceptsAt(s, i, kind);
      assert s[..i] == a[..i];
      var r := a[i + 1..];
      assert s[i + 1..] == r + ", " + b;
      SkipSpaceJoin(r, b);
      AcceptsJoin(SkipSpace(r), b, kind);
    }
  }

  /** The space after a comma is optional: two accepted lists joined by a
      bare comma are accepted too. Only this direction holds, because the
      text after a bare comma may begin with the one optional space. */
  lemma {:induction false} AcceptsCommaJoin(a: string, b: string, kind: ItemKind)
    requires Accepts(a, kind) && Accepts(b, kind)
    ensures Accepts(a + "," + b, kind)
    decreases |a|
  {
    var i := FirstComma(a);
    AcceptsAt(a, i, kind);
    if i == |a| {
      assert a[..i] == a;
      AcceptsCommaJoinLast(a, b, kind);
    } else {
      var t := SkipSpace(a[i + 1..]);
      AcceptsCommaJoin(t, b, kind);
      AcceptsCommaJoinAt(a, b, kind, i);
    }
  }

  /** The first item of `a` followed by the bare-comma join of the rest. */
  lemma AcceptsCommaJoinAt(a: string, b: string, kind: ItemKind, i: nat)
    requires i == FirstComma(a) && i < |a|
    requires IsItem(kind, a[..i])
    requires Accepts(SkipSpace(a[i + 1..]) + "," + b, kind)
    ensures Accepts(a + "," + b, kind)
  {
    var s := a + "," + b;
    var r := a[i + 1..];
    FirstCommaConcat(a, "," + b);
    assert s == a + ("," + b);
    assert s[..i] == a[..i];
    assert s[i + 1..] == r + "," + b;
    SkipSpaceCommaJoin(r, b);
    AcceptsAt(s, i, kind);
  }

  /** The last item of `a` followed by a bare comma and an accepted `b`. */
  lemma AcceptsCommaJoinLast(a: string, b: string, kind: ItemKind)
    requires FirstComma(a) == |a|
    requires IsItem(kind, a) && Accepts(b, kind)
    ensures Accepts(a + "," + b, kind)
  {
    var s := a + "," + b;
    var c := "," + b;
    assert FirstComma(c) == 0;
    FirstCommaConcat(a, c);
    assert s == a + c;
    assert s[..|a|] == a;
    assert s[|a| + 1..] == b;
    assert b[0] != ' ';
    assert SkipSpace(s[|a| + 1..]) == b;
    AcceptsAt(s, |a|, kind);
    assert IsItem(kind, s[..|a|]) && Accepts(SkipSpace(s[|a| + 1..]), kind);
  }

  /** A bare comma keeps the first part's optional space in front. */
  lemma SkipSpaceCommaJoin(r: string, b: string)
    ensures SkipSpace(r + "," + b) == SkipSpace(r) + "," + b
  {
    if |r| > 0 && r[0] == ' ' {
      assert (r + "," + b)[1..] == r[1..] + "," + b;
    } else if |r| == 0 {
      assert r + "," + b == "," + b;
    }
  }

  /** The optional space after a comma is dropped from the first part of a
      join. */
  lemma SkipSpaceJoin(r: string, b: string)
    ensures SkipSpace(r + ", " + b) == SkipSpace(r) + ", " + b
  {
    if |r| > 0 && r[0] == ' ' {
      assert (r + ", " + b)[1..] == r[1..] + ", " + b;
    } else if |r| == 0 {
      assert r + ", " + b == ", " + b;
    }
  }

  /** Items carry no comma and no surrounding white space. */
  lemma ItemIsPlain(kind: ItemKind, x: string)
    requires IsItem(kind, x)
    ensures ',' !in x && Trim(x) == x
  {
    TrimFixed(x);
  }

  /** Every field of an accepted list, as the split-and-trim reading sees
      it, is an item. */
  lemma {:induction false} AcceptedFieldsAreItems(s: string, kind: ItemKind)
    requires Accepts(s, kind)
    ensures forall k :: 0 <= k < |Fields(s)| ==> IsItem(kind, Fields(s)[k])
    decreases |s|
  {
    var i := FirstComma(s);
    AcceptsAt(s, i, kind);
    if i == |s| {
      assert s[..i] == s;
      assert IsItem(kind, s);
      assert ',' !in s;
      SplitNoSeparator(s, ',');
      ItemIsPlain(kind, s);
      assert Fields(s) == [s];
    } else {
      var head := s[..i];
      var next := SkipSpace(s[i + 1..]);
      FieldsAtFirstComma(s, i);
      ItemIsPlain(kind, head);
      AcceptedFieldsAreItems(next, kind);
    }
  }

  /** The fields of `s` are the trimmed text before its first comma followed
      by the fields after it (an optional space there changes nothing). */
  lemma FieldsAtFirstComma(s: string, i: nat)
    requires i == FirstComma(s) < |s|
    ensures Fields(s) == [Trim(s[..i])] + Fields(SkipSpace(s[i + 1..]))
  {
    var head := s[..i];
    var rest := s[i + 1..];
    assert s == head + "," + rest;
    FieldsAtComma(head, rest);
    if |rest| > 0 && rest[0] == ' ' {
      assert rest == " " + rest[1..];
      FieldsAfterSpace(rest[1..]);
    }
  }

  /** A single item is an accepted list. */
  lemma ItemAccepted(kind: ItemKind, p: string)
    requires IsItem(kind, p)
    ensures Accepts(p, kind)
  {
    ItemIsPlain(kind, p);
    AcceptsAt(p, FirstComma(p), kind);
  }

  /** Joining items with ", " gives an accepted list. */
  lemma {:induction false} JoinAccepted(parts: seq<string>, kind: ItemKind)
    requires |parts| >= 1
    requires forall k :: 0 <= k < |parts| ==> IsItem(kind, parts[k])
    ensures Accepts(Join(parts, ", "), kind)
    decreases |parts|
  {
    ItemAccepted(kind, parts[0]);
    if |parts| > 1 {
      JoinAccepted(parts[1..], kind);
      AcceptsJoin(parts[0], Join(parts[1..], ", "), kind);
    }
  }

  /** Reading a list joined with ", " gives back its items, in order. */
  lemma {:induction false} JoinFields(parts: seq<string>, kind: ItemKind)
    requires |parts| >= 1
    requires forall k :: 0 <= k < |parts| ==> IsItem(kind, parts[k])
    ensures Fields(Join(parts, ", ")) == parts
    decreases |parts|
  {
    var p := parts[0];
    ItemIsPlain(kind, p);
    if |parts| == 1 {
      SplitNoSeparator(p, ',');
    } else {
      var rest := parts[1..];
      JoinFields(rest, kind);
      assert Join(parts, ", ") == p + ", " + Join(rest, ", ");
      FieldsAfterItem(p, Join(rest, ", "));
    }
  }

  /** Joining one more plain item in front adds exactly that field. */
  lemma FieldsAfterItem(p: string, tail: string)
    requires ',' !in p && Trim(p) == p
    ensures Fields(p + ", " + tail) == [p] + Fields(tail)
  {
    assert p + ", " + tail == p + "," + (" " + tail);
    FieldsAtComma(p, " " + tail);
    FieldsAfterSpace(tail);
  }
}

=== FILE: detective_input.dfy ===
/**
 The detective position entry of one move: a comma-separated list of node
 numbers, read back as a set of integers.
 */
module DetectiveInput {
  import opened Text
  import opened CommaList

  /** The entry's validator, `[0-9]+(, ?[0-9]+)*`. */
  predicate IsPositionEntry(text: string) {
    Accepts(text, DigitRun)
  }

  /** One list item: trimmed, leading zeros removed, then converted by
      `toInt`. */
  function PositionOf(item: string): (r: int)
    ensures |Trim(item)| > 0 && IsDigits(Trim(item)) ==> r == DigitsValue(Trim(item))
    ensures (forall i :: 0 <= i < |Trim(item)| ==> Trim(item)[i] == '0') ==> r == 0
  {
    var t := Trim(item);
    if |t| > 0 && IsDigits(t) then
      StripLeadingZerosValue(t);
      TrimFixed(StripLeadingZeros(t));
      ToInt(StripLeadingZeros(t))
    else
      ToInt(StripLeadingZeros(t))
  }

  /** detectivePositions: the set of the converted items of the text split
      on commas. Repeated positions collapse, so there are never more
      positions than items. */
  function DetectivePositions(text: string): (r: set<int>)
    ensures |r| <= |Split(text, ',')|
    ensures forall x :: x in r <==>
      exists k :: 0 <= k < |Split(text, ',')| && PositionOf(Split(text, ',')[k]) == x
  {
    Distinct(Converted(Split(text, ',')))
  }

  /** The converted items of a list, in order. */
  function Converted(items: seq<string>): (r: seq<int>)
    ensures |r| == |items|
    ensures forall k :: 0 <= k < |items| ==> r[k] == PositionOf(items[k])
  {
    if |items| == 0 then [] else [PositionOf(items[0])] + Converted(items[1..])
  }

  /** The distinct values of a list: at most one per element. */
  function Distinct(vs: seq<int>): (r: set<int>)
    ensures |r| <= |vs|
    ensures forall x :: x in r <==> x in vs
  {
    if |vs| == 0 then {} else {vs[0]} + Distinct(vs[1..])
  }

  /** Zeros in front of a digit run name the same position: "007" is 7. */
  lemma LeadingZerosIgnored(z: string, d: string)
    requires forall i :: 0 <= i < |z| ==> z[i] == '0'
    requires IsDigits(d)
    ensures PositionOf(z + d) == PositionOf(d)
  {
    assert IsDigits(z + d);
    TrimFixed(z + d);
    TrimFixed(d);
    StripLeadingZerosPrefix(z, d);
  }

  /** An item of zeros only, possibly with spaces around it, is position 0. */
  lemma AllZerosIsZero(item: string)
    requires forall i :: 0 <= i < |Trim(item)| ==> Trim(item)[i] == '0'
    ensures PositionOf(item) == 0
  {
    var t := Trim(item);
    assert |StripLeadingZeros(t)| == 0;
  }

  /** Concrete instances of the two rules above. */
  lemma ZerosExamples()
    ensures PositionOf("7") == 7
    ensures PositionOf("007") == 7
    ensures PositionOf("000") == 0
  {
    TrimFixed("7");
    DigitItemValue("7");
    assert DigitsValue("7") == 7;
    LeadingZerosIgnored("00", "7");
    assert "00" + "7" == "007";
    TrimFixed("000");
    AllZerosIsZero("000");
  }

  /** A trimmed non-empty digit run converts to its decimal value. */
  lemma DigitItemValue(item: string)
    requires |Trim(item)| > 0 && IsDigits(Trim(item))
    ensures PositionOf(item) == DigitsValue(Trim(item))
  {
    var t := Trim(item);
    var u := StripLeadingZeros(t);
    StripLeadingZerosValue(t);
    TrimFixed(u);
  }

  /** Text the validator accepts reads as the decimal values of its items,
      all of them non-negative. */
  lemma AcceptedPositions(text: string)
    requires IsPositionEntry(text)
    ensures forall k :: 0 <= k < |Fields(text)| ==> |Fields(text)[k]| > 0 && IsDigits(Fields(text)[k])
    ensures forall x :: x in DetectivePositions(text) <==>
      exists k :: 0 <= k < |Fields(text)| && x == DigitsValue(Fields(text)[k])
    ensures forall x :: x in DetectivePositions(text) ==> x >= 0
  {
    var parts := Split(text, ',');
    AcceptedFieldsAreItems(text, DigitRun);
    forall k | 0 <= k < |parts|
      ensures PositionOf(parts[k]) == DigitsValue(Fields(text)[k])
    {
      assert Fields(text)[k] == Trim(parts[k]);
      DigitItemValue(parts[k]);
    }
  }

  /** White space on either side of an item changes nothing. */
  lemma SpaceAroundItem(c: char, item: string)
    requires IsSpace(c)
    ensures PositionOf([c] + item) == PositionOf(item)
    ensures PositionOf(item + [c]) == PositionOf(item)
  {
    TrimLeadingSpace(c, item);
    TrimTrailingSpace(item, c);
  }

  /** Converting one more item appends its position. */
  lemma ConvertedSnoc(items: seq<string>, item: string)
    ensures Converted(items + [item]) == Converted(items) + [PositionOf(item)]
  {
  }

  /** The distinct values of a list with one more element. */
  lemma DistinctSnoc(vs: seq<int>, v: int)
    ensures Distinct(vs + [v]) == Distinct(vs) + {v}
  {
    assert forall x :: x in vs + [v] <==> x in vs || x == v;
  }

  /** The split of a text with one more comma-free item. */
  lemma SplitSnoc(text: string, item: string)
    requires ',' !in item
    ensures Split(text + "," + item, ',') == Split(text, ',') + [item]
  {
    assert text + "," + item == text + [','] + item;
    SplitAtSeparator(text, item, ',');
    SplitNoSeparator(item, ',');
  }

  /** One more item adds its position to the set. */
  lemma AppendItem(text: string, item: string)
    requires ',' !in item
    ensures DetectivePositions(text + "," + item) == DetectivePositions(text) + {PositionOf(item)}
  {
    var parts := Split(text, ',');
    SplitSnoc(text, item);
    ConvertedSnoc(parts, item);
    DistinctSnoc(Converted(parts), PositionOf(item));
  }

  /** Entering a position that is already listed changes nothing. */
  lemma RepeatCollapses(text: string, item: string)
    requires ',' !in item
    requires PositionOf(item) in DetectivePositions(text)
    ensures DetectivePositions(text + "," + item) == DetectivePositions(text)
  {
    AppendItem(text, item);
    AddPresent(DetectivePositions(text), PositionOf(item));
  }

  lemma AddPresent(s: set<int>, x: int)
    requires x in s
    ensures s + {x} == s
  {
  }
}

=== FILE: frontier.dfy ===
/**
 The position estimator behind the Calculate button: starting from the last
 known location, every ticket replaces the weighted frontier of candidate
 positions by the nodes that ticket reaches; the final weights become
 percentages listed from the most to the least likely position.
 */
module Frontier {
  import opened Text
  import opened TransportGraph
  import opened Tickets

  /** Candidate positions and their weights. */
  type Frontier = map<string, nat>

  predicate Positive(F: Frontier) {
    forall n :: n in F ==> F[n] >= 1
  }

  /** The nodes of `nodes` from which `ticket` reaches `k`. */
  function Sources(g: Graph, nodes: set<string>, ticket: string, k: string): set<string> {
    set n | n in nodes && k in Reach(g, n, ticket)
  }

  /** Every node `ticket` reaches from some node of `nodes`. */
  function Targets(g: Graph, nodes: set<string>, ticket: string): set<string> {
    set n, k | n in nodes && k in Reach(g, n, ticket) :: k
  }

  /** The frontier after one ticket: the nodes the ticket reaches from the
      current frontier, each weighted by how many current frontier nodes
      reach it. The weights of the current frontier play no part. */
  function NextFrontier(g: Graph, F: Frontier, ticket: string): (r: Frontier)
    ensures Positive(r)
  {
    var T := Targets(g, F.Keys, ticket);
    forall k | k in T
      ensures 1 <= |Sources(g, F.Keys, ticket, k)|
    {
      var n, k' :| n in F.Keys && k' in Reach(g, n, ticket) && k' == k;
      assert n in Sources(g, F.Keys, ticket, k);
    }
    map k | k in T :: |Sources(g, F.Keys, ticket, k)|
  }

  /** No weight of the next frontier exceeds the number of current
      candidates. */
  lemma NextFrontierBound(g: Graph, F: Frontier, ticket: string)
    ensures forall k :: k in NextFrontier(g, F, ticket) ==> NextFrontier(g, F, ticket)[k] <= |F|
  {
    forall k | k in NextFrontier(g, F, ticket)
      ensures |Sources(g, F.Keys, ticket, k)| <= |F|
    {
      SubsetSize(Sources(g, F.Keys, ticket, k), F.Keys);
    }
  }

  lemma SubsetSize(a: set<string>, b: set<string>)
    requires a <= b
    ensures |a| <= |b|
  {
    assert b == a + (b - a);
  }

  /** A node is in the next frontier exactly when some current node reaches
      it, with weight the number of those nodes. */
  lemma NextFrontierAt(g: Graph, F: Frontier, ticket: string, k: string)
    ensures k in NextFrontier(g, F, ticket) <==> Sources(g, F.Keys, ticket, k) != {}
    ensures k in NextFrontier(g, F, ticket) ==>
      NextFrontier(g, F, ticket)[k] == |Sources(g, F.Keys, ticket, k)|
  {
    var T := Targets(g, F.Keys, ticket);
    var S := Sources(g, F.Keys, ticket, k);
    if S != {} {
      var n :| n in S;
      assert k in T;
    }
    if k in T {
      var n, k' :| n in F.Keys && k' in Reach(g, n, ticket) && k' == k;
      assert n in S;
    }
  }

  /** The weights of a map after adding 1 for every node of `conns`
      (a node not yet present starts at 1). */
  function AddOne(acc: Frontier, conns: set<string>): (r: Frontier)
    ensures r.Keys == acc.Keys + conns
    ensures forall k :: k in r ==> r[k] == (if k in acc then acc[k] else 0) + (if k in conns then 1 else 0)
  {
    map k | k in acc.Keys + conns :: if k in conns then (if k in acc then acc[k] + 1 else 1) else acc[k]
  }

  /** Visiting one more frontier node adds it to the sources of exactly the
      nodes it reaches. */
  lemma SourcesGrow(g: Graph, done: set<string>, n: string, ticket: string, k: string)
    requires n !in done
    ensures |Sources(g, done + {n}, ticket, k)|
            == |Sources(g, done, ticket, k)| + (if k in Reach(g, n, ticket) then 1 else 0)
  {
    if k in Reach(g, n, ticket) {
      assert Sources(g, done + {n}, ticket, k) == Sources(g, done, ticket, k) + {n};
    } else {
      assert Sources(g, done + {n}, ticket, k) == Sources(g, done, ticket, k);
    }
  }

  /** One ticket of the calculation: a fresh frontier built by visiting the
      current frontier's nodes in unspecified order and adding 1 to every
      node each one reaches. Its nodes are exactly those some current node
      reaches, and each weight counts the current nodes that reach it. */
  method Step(g: Graph, F: Frontier, ticket: string) returns (next: Frontier)
    ensures forall k :: k in next <==> exists n :: n in F && k in Reach(g, n, ticket)
    ensures forall k :: k in next ==> next[k] == |Sources(g, F.Keys, ticket, k)|
    ensures next == NextFrontier(g, F, ticket)
  {
    next := map[];
    var todo := F.Keys;
    while todo != {}
      invariant todo <= F.Keys
      invariant Counts(g, F.Keys - todo, ticket, next)
    {
      var n :| n in todo;
      CountsGrow(g, F.Keys - todo, n, ticket, next);
      next := AddOne(next, Reach(g, n, ticket));
      MoveOne(F.Keys, todo, n);
      todo := todo - {n};
    }
    assert F.Keys - todo == F.Keys;
    CountsComplete(g, F, ticket, next);
  }

  /** `acc` holds, for every node reached from `done`, the number of nodes of
      `done` that reach it. */
  ghost predicate Counts(g: Graph, done: set<string>, ticket: string, acc: Frontier) {
    && (forall k :: k in acc <==> Sources(g, done, ticket, k) != {})
    && (forall k :: k in acc ==> acc[k] == |Sources(g, done, ticket, k)|)
  }

  /** Adding 1 for every node one more visited node reaches keeps the
      counts. */
  lemma CountsGrow(g: Graph, done: set<string>, n: string, ticket: string, acc: Frontier)
    requires n !in done
    requires Counts(g, done, ticket, acc)
    ensures Counts(g, done + {n}, ticket, AddOne(acc, Reach(g, n, ticket)))
  {
    var R := Reach(g, n, ticket);
    var acc' := AddOne(acc, R);
    forall k
      ensures k in acc' <==> Sources(g, done + {n}, ticket, k) != {}
      ensures k in acc' ==> acc'[k] == |Sources(g, done + {n}, ticket, k)|
    {
      SourcesGrow(g, done, n, ticket, k);
    }
  }

  /** The counts over the whole frontier are the next frontier. */
  lemma CountsComplete(g: Graph, F: Frontier, ticket: string, next: Frontier)
    requires Counts(g, F.Keys, ticket, next)
    ensures forall k :: k in next <==> exists n :: n in F && k in Reach(g, n, ticket)
    ensures next == NextFrontier(g, F, ticket)
  {
    CountsReached(g, F, ticket, next);
    CountsAreNext(g, F, ticket, next);
  }

  /** Counts over the whole frontier have the keys and weights of the next
      frontier. */
  lemma CountsAreNext(g: Graph, F: Frontier, ticket: string, next: Frontier)
    requires Counts(g, F.Keys, ticket, next)
    ensures next == NextFrontier(g, F, ticket)
  {
    var T := Targets(g, F.Keys, ticket);
    forall k
      ensures k in next <==> k in T
    {
      TargetsHaveSources(g, F.Keys, ticket, k);
    }
    SameMap(next, NextFrontier(g, F, ticket));
  }

  /** Two maps with the same keys and the same value at each key are equal. */
  lemma SameMap(a: Frontier, b: Frontier)
    requires a.Keys == b.Keys
    requires forall k :: k in a ==> a[k] == b[k]
    ensures a == b
  {
  }

  /** The counted nodes are those some frontier node reaches. */
  lemma CountsReached(g: Graph, F: Frontier, ticket: string, next: Frontier)
    requires Counts(g, F.Keys, ticket, next)
    ensures forall k :: k in next <==> exists n :: n in F && k in Reach(g, n, ticket)
  {
    forall k | k in next
      ensures exists n :: n in F && k in Reach(g, n, ticket)
    {
      var n :| n in Sources(g, F.Keys, ticket, k);
    }
    forall k | exists n :: n in F && k in Reach(g, n, ticket)
      ensures k in next
    {
      var n :| n in F && k in Reach(g, n, ticket);
      assert n in Sources(g, F.Keys, ticket, k);
    }
  }

  /** A node is a target exactly when it has a source. */
  lemma TargetsHaveSources(g: Graph, nodes: set<string>, ticket: string, k: string)
    ensures k in Targets(g, nodes, ticket) <==> Sources(g, nodes, ticket, k) != {}
  {
    if Sources(g, nodes, ticket, k) != {} {
      var n :| n in Sources(g, nodes, ticket, k);
      assert k in Targets(g, nodes, ticket);
    }
  }

  /** The frontier after a sequence of tickets, processed in order. */
  function Propagate(g: Graph, F: Frontier, tickets: seq<string>): (r: Frontier)
    ensures |tickets| == 0 ==> r == F
    ensures |tickets| > 0 ==> Positive(r)
    decreases |tickets|
  {
    if |tickets| == 0 then F else Propagate(g, NextFrontier(g, F, tickets[0]), tickets[1..])
  }

  /** The ticket loop of the calculation. */
  method Run(g: Graph, F: Frontier, tickets: seq<string>) returns (final: Frontier)
    ensures final == Propagate(g, F, tickets)
  {
    final := F;
    var i := 0;
    while i < |tickets|
      invariant 0 <= i <= |tickets|
      invariant Propagate(g, final, tickets[i..]) == Propagate(g, F, tickets)
    {
      assert tickets[i..][1..] == tickets[i + 1..];
      final := Step(g, final, tickets[i]);
      i := i + 1;
    }
  }

  /** Processing one more ticket is one more step on the frontier reached so
      far. */
  lemma {:induction false} PropagateSnoc(g: Graph, F: Frontier, tickets: seq<string>, ticket: string)
    ensures Propagate(g, F, tickets + [ticket]) == NextFrontier(g, Propagate(g, F, tickets), ticket)
    decreases |tickets|
  {
    if |tickets| == 0 {
      assert (tickets + [ticket])[1..] == [];
    } else {
      assert (tickets + [ticket])[1..] == tickets[1..] + [ticket];
      PropagateSnoc(g, NextFrontier(g, F, tickets[0]), tickets[1..], ticket);
    }
  }

  /** Every frontier after at least one ticket has positive weights. */
  lemma {:induction false} PropagatePositive(g: Graph, F: Frontier, tickets: seq<string>)
    requires Positive(F)
    ensures Positive(Propagate(g, F, tickets))
    decreases |tickets|
  {
    if |tickets| > 0 {
      PropagatePositive(g, NextFrontier(g, F, tickets[0]), tickets[1..]);
    }
  }

  /** Once no position is left, none comes back. */
  lemma {:induction false} DeadEndStays(g: Graph, tickets: seq<string>)
    ensures Propagate(g, map[], tickets) == map[]
    decreases |tickets|
  {
    if |tickets| > 0 {
      assert NextFrontier(g, map[], tickets[0]) == map[];
      DeadEndStays(g, tickets[1..]);
    }
  }

  /** A start node the graph does not describe as an object leaves no
      position after the first ticket. */
  lemma UnknownStartLeavesNothing(g: Graph, start: string, tickets: seq<string>)
    requires !(start in g && g[start].JObject?)
    requires |tickets| >= 1
    ensures Propagate(g, map[start := 1], tickets) == map[]
  {
    var F: Frontier := map[start := 1];
    assert Reach(g, start, tickets[0]) == {};
    assert NextFrontier(g, F, tickets[0]) == map[];
    DeadEndStays(g, tickets[1..]);
  }

  /** After a failed load the graph stays empty, so once the Calculate button
      is enabled again every location and ticket text ends in an empty
      frontier, and the listing is empty. */
  lemma EmptyGraphLeavesNothing(location: string, ticketText: string)
    ensures Propagate(map[], InitialFrontier(location), ParseTickets(ticketText)) == map[]
  {
    UnknownStartLeavesNothing(map[], StripLeadingZeros(location), ParseTickets(ticketText));
  }

  /** From a single frontier node, whatever its weight, every node the ticket
      reaches gets weight 1: a node reached through several modes of a black
      ticket still counts once. */
  lemma SingleSourceStep(g: Graph, n: string, w: nat, ticket: string)
    ensures NextFrontier(g, map[n := w], ticket).Keys == Reach(g, n, ticket)
    ensures forall k :: k in Reach(g, n, ticket) ==> NextFrontier(g, map[n := w], ticket)[k] == 1
  {
    var F := map[n := w];
    assert F.Keys == {n};
    forall k | k in Reach(g, n, ticket)
      ensures NextFrontier(g, F, ticket)[k] == 1
    {
      assert Sources(g, F.Keys, ticket, k) == {n};
    }
  }

  /** Under a black ticket, a node's weight counts the frontier nodes that
      list it under at least one mode. */
  lemma BlackWeightCountsSources(g: Graph, F: Frontier, k: string)
    ensures k in NextFrontier(g, F, "black") ==>
      NextFrontier(g, F, "black")[k]
      == |(set n | n in F && exists m :: m in Modes && k in Connections(g, n, m))|
  {
    var byMode := set n | n in F && exists m :: m in Modes && k in Connections(g, n, m);
    forall n
      ensures n in Sources(g, F.Keys, "black", k) <==> n in byMode
    {
      BlackReachesEveryMode(g, n, k);
    }
    assert Sources(g, F.Keys, "black", k) == byMode;
  }

  /** The sum of the weights of the nodes of `S`. */
  ghost function SumOver(F: Frontier, S: set<string>): nat
    requires S <= F.Keys
    decreases S
  {
    if S == {} then 0 else var n :| n in S; F[n] + SumOver(F, S - {n})
  }

  /** The sum of all weights. */
  ghost function Total(F: Frontier): nat {
    SumOver(F, F.Keys)
  }

  /** The sum does not depend on which node is taken first. */
  lemma {:induction false} SumOverRemove(F: Frontier, S: set<string>, n: string)
    requires S <= F.Keys
    requires n in S
    ensures SumOver(F, S) == F[n] + SumOver(F, S - {n})
    decreases S
  {
    var m :| m in S && SumOver(F, S) == F[m] + SumOver(F, S - {m});
    if m != n {
      SumOverRemove(F, S - {m}, n);
      SumOverRemove(F, S - {n}, m);
      assert S - {m} - {n} == S - {n} - {m};
    }
  }

  /** No weight exceeds the total, and a non-empty positive frontier has a
      positive total. */
  lemma WeightAtMostTotal(F: Frontier, n: string)
    requires n in F
    ensures F[n] <= Total(F)
    ensures Positive(F) ==> Total(F) >= 1
  {
    SumOverRemove(F, F.Keys, n);
  }

  /** The summing loop of the calculation, over the weights in unspecified
      order. */
  method SumWeights(F: Frontier) returns (total: nat)
    ensures total == Total(F)
  {
    total := 0;
    var todo := F.Keys;
    while todo != {}
      invariant todo <= F.Keys
      invariant total + SumOver(F, todo) == Total(F)
    {
      var n :| n in todo;
      SumOverRemove(F, todo, n);
      total := total + F[n];
      todo := todo - {n};
    }
  }

  /** A position and its probability in percent. */
  datatype Entry = Entry(node: string, percent: real)

  /** A weight as a percentage of the total. */
  function Percent(weight: nat, total: nat): real
    requires total > 0
  {
    (weight as real) / (total as real) * 100.0
  }

  predicate NonIncreasing(es: seq<Entry>) {
    forall i, j :: 0 <= i < j < |es| ==> es[i].percent >= es[j].percent
  }

  /** The positions listed, with their multiplicity. */
  function NodeBag(es: seq<Entry>): (b: multiset<string>)
    ensures |b| == |es|
  {
    if |es| == 0 then multiset{} else multiset{es[0].node} + NodeBag(es[1..])
  }

  /** Insertion into a list kept in non-increasing order of percentage; the
      new entry goes after the entries with an equal percentage. */
  function InsertDescending(es: seq<Entry>, e: Entry): (r: seq<Entry>)
    requires NonIncreasing(es)
    ensures NonIncreasing(r)
    ensures multiset(r) == multiset(es) + multiset{e}
    ensures NodeBag(r) == NodeBag(es) + multiset{e.node}
  {
    if |es| == 0 then [e]
    else if es[0].percent >= e.percent then
      var rest := InsertDescending(es[1..], e);
      InsertedBelow(es, e, rest);
      InsertedBelowBags(es[0], es[1..], e, rest);
      assert [es[0]] + es[1..] == es;
      [es[0]] + rest
    else
      PrependAbove(e, es);
      NodeBagCons(e, es);
      [e] + es
  }

  /** An entry at least as high as the head of a non-increasing list can go
      in front of it. */
  lemma PrependAbove(x: Entry, rest: seq<Entry>)
    requires NonIncreasing(rest)
    requires |rest| > 0 ==> x.percent >= rest[0].percent
    ensures NonIncreasing([x] + rest)
  {
    var r := [x] + rest;
    forall i, j | 0 <= i < j < |r|
      ensures r[i].percent >= r[j].percent
    {
      assert r[j] == rest[j - 1];
      if i > 0 {
        assert r[i] == rest[i - 1];
      } else if j > 1 {
        assert rest[0].percent >= rest[j - 1].percent;
      }
    }
  }

  lemma NodeBagCons(x: Entry, rest: seq<Entry>)
    ensures NodeBag([x] + rest) == multiset{x.node} + NodeBag(rest)
  {
    assert ([x] + rest)[1..] == rest;
  }

  /** Putting the head back in front of the tail with the new entry gives
      the old entries plus the new one. */
  lemma InsertedBelowBags(h: Entry, tail: seq<Entry>, e: Entry, rest: seq<Entry>)
    requires multiset(rest) == multiset(tail) + multiset{e}
    requires NodeBag(rest) == NodeBag(tail) + multiset{e.node}
    ensures multiset([h] + rest) == multiset([h] + tail) + multiset{e}
    ensures NodeBag([h] + rest) == NodeBag([h] + tail) + multiset{e.node}
  {
    NodeBagCons(h, rest);
    NodeBagCons(h, tail);
  }

  /** The tail after inserting below the head stays below the head. */
  lemma InsertedBelow(es: seq<Entry>, e: Entry, rest: seq<Entry>)
    requires |es| > 0 && NonIncreasing(es)
    requires es[0].percent >= e.percent
    requires NonIncreasing(rest)
    requires multiset(rest) == multiset(es[1..]) + multiset{e}
    ensures NonIncreasing([es[0]] + rest)
  {
    var r := [es[0]] + rest;
    forall j | 0 < j < |r|
      ensures r[0].percent >= r[j].percent
    {
      var x := r[j];
      assert x == rest[j - 1];
      assert x in multiset(rest);
      if x != e {
        assert x in multiset(es[1..]);
        var m :| 0 <= m < |es[1..]| && es[1..][m] == x;
        assert es[m + 1] == x;
      }
    }
    forall i, j | 0 <= i < j < |r|
      ensures r[i].percent >= r[j].percent
    {
      if i > 0 {
        assert r[i] == rest[i - 1] && r[j] == rest[j - 1];
      }
    }
  }

  /** `es` lists every node of `F` exactly once, in non-increasing order of
      percentage, each with its weight as a percentage of the total
      weight. */
  ghost predicate IsRanking(F: Frontier, es: seq<Entry>) {
    && NonIncreasing(es)
    && NodeBag(es) == multiset(F.Keys)
    && forall e :: e in es ==> e.node in F && Total(F) > 0 && e.percent == Percent(F[e.node], Total(F))
  }

  /** The ranking loop of the calculation: each node's percentage inserted
      into a list kept in non-increasing order. Nothing is divided when the
      frontier is empty. */
  method Rank(F: Frontier, total: nat) returns (es: seq<Entry>)
    requires Positive(F)
    requires total == Total(F)
    ensures IsRanking(F, es)
  {
    es := [];
    var todo := F.Keys;
    while todo != {}
      invariant todo <= F.Keys
      invariant RankedSoFar(F, total, F.Keys - todo, es)
    {
      var n :| n in todo;
      WeightAtMostTotal(F, n);
      RankStep(F, total, F.Keys - todo, es, n);
      es := InsertDescending(es, Entry(n, Percent(F[n], total)));
      MoveOne(F.Keys, todo, n);
      todo := todo - {n};
    }
    assert F.Keys - todo == F.Keys;
  }

  /** The entries ranked so far: one per node of `done`, in non-increasing
      order, each with its weight as a percentage of `total`. */
  ghost predicate RankedSoFar(F: Frontier, total: nat, done: set<string>, es: seq<Entry>) {
    && NonIncreasing(es)
    && NodeBag(es) == multiset(done)
    && forall x :: x in es ==> x.node in F && total > 0 && x.percent == Percent(F[x.node], total)
  }

  /** Moving one node from the pending to the visited nodes. */
  lemma MoveOne(all: set<string>, todo: set<string>, n: string)
    requires n in all
    ensures all - (todo - {n}) == (all - todo) + {n}
  {
  }

  /** Inserting the entry of one more node keeps the ranking so far. */
  lemma RankStep(F: Frontier, total: nat, done: set<string>, es: seq<Entry>, n: string)
    requires RankedSoFar(F, total, done, es)
    requires n in F && n !in done && total > 0
    ensures RankedSoFar(F, total, done + {n}, InsertDescending(es, Entry(n, Percent(F[n], total))))
  {
    var e := Entry(n, Percent(F[n], total));
    var r := InsertDescending(es, e);
    forall x | x in r
      ensures x in es || x == e
    {
      assert x in multiset(r);
    }
  }

  /** The result of the Calculate button. */
  datatype Analysis = MoreInformationNeeded | Ranked(entries: seq<Entry>)

  /** The frontier before any ticket: the entered location, leading zeros
      removed, with weight 1. */
  function InitialFrontier(location: string): (F: Frontier)
    ensures |F| == 1 && Positive(F)
    ensures forall n :: n in F <==> n == StripLeadingZeros(location)
    ensures F[StripLeadingZeros(location)] == 1
  {
    map[StripLeadingZeros(location) := 1]
  }

  /** The Calculate button: an empty location or ticket entry asks for more
      information; otherwise the location (leading zeros removed) starts a
      frontier of weight 1, the trimmed comma-separated tickets are processed
      in order, and the final frontier is ranked. */
  method Calculate(g: Graph, location: string, ticketText: string) returns (r: Analysis)
    ensures r.MoreInformationNeeded? <==> location == [] || ticketText == []
    ensures r.Ranked? ==>
      IsRanking(Propagate(g, InitialFrontier(location), ParseTickets(ticketText)), r.entries)
  {
    if location == [] || ticketText == [] {
      return MoreInformationNeeded;
    }
    var start := InitialFrontier(location);
    var tickets := ParseTickets(ticketText);
    var final := Run(g, start, tickets);
    PropagatePositive(g, start, tickets);
    var total := SumWeights(final);
    var entries := Rank(final, total);
    r := Ranked(entries);
  }

  /** The sum of the percentages of a list. */
  function SumPercent(es: seq<Entry>): real {
    if |es| == 0 then 0.0 else es[0].percent + SumPercent(es[1..])
  }

  lemma PercentAdd(a: nat, b: nat, total: nat)
    requires total > 0
    ensures Percent(a, total) + Percent(b, total) == Percent(a + b, total)
  {
  }

  /** Percentages of the nodes of `S` add up to the percentage of their
      summed weight. */
  lemma {:induction false} PercentSum(F: Frontier, S: set<string>, es: seq<Entry>, total: nat)
    requires total > 0
    requires S <= F.Keys
    requires NodeBag(es) == multiset(S)
    requires forall e :: e in es ==> e.node in F && e.percent == Percent(F[e.node], total)
    ensures SumPercent(es) == Percent(SumOver(F, S), total)
    decreases |es|
  {
    if |es| == 0 {
      assert S == {};
    } else {
      var n := es[0].node;
      assert n in NodeBag(es);
      assert n in S;
      assert multiset(S - {n}) == multiset(S) - multiset{n};
      assert NodeBag(es[1..]) == multiset(S - {n});
      assert forall e :: e in es[1..] ==> e in es;
      PercentSum(F, S - {n}, es[1..], total);
      SumOverRemove(F, S, n);
      PercentAdd(F[n], SumOver(F, S - {n}), total);
    }
  }

  /** The percentages of a ranking of a non-empty frontier add up to 100. */
  lemma RankingSumsTo100(F: Frontier, es: seq<Entry>)
    requires Positive(F) && F != map[]
    requires IsRanking(F, es)
    ensures SumPercent(es) == 100.0
  {
    var n :| n in F;
    WeightAtMostTotal(F, n);
    var t := Total(F);
    assert t > 0;
    PercentSum(F, F.Keys, es, t);
    assert SumOver(F, F.Keys) == t;
    WholePercent(t);
  }

  /** The total is 100 percent of itself. */
  lemma WholePercent(t: nat)
    requires t > 0
    ensures Percent(t, t) == 100.0
  {
    assert (t as real) / (t as real) == 1.0;
  }

  /** Every percentage of a ranking of a positive frontier lies in
      (0, 100]. */
  lemma RankingBounds(F: Frontier, es: seq<Entry>)
    requires Positive(F)
    requires IsRanking(F, es)
    ensures forall i :: 0 <= i < |es| ==> 0.0 < es[i].percent <= 100.0
  {
    forall i | 0 <= i < |es|
      ensures 0.0 < es[i].percent <= 100.0
    {
      assert es[i] in es;
      WeightAtMostTotal(F, es[i].node);
    }
  }

  /** An empty frontier ranks as the empty list. */
  lemma EmptyRanking(es: seq<Entry>)
    requires IsRanking(map[], es)
    ensures es == []
  {
  }

  /** A frontier of one node ranks as that node at 100 percent. */
  lemma SingleRanking(n: string, w: nat, es: seq<Entry>)
    requires w >= 1
    requires IsRanking(map[n := w], es)
    ensures es == [Entry(n, 100.0)]
  {
    var F := map[n := w];
    assert |NodeBag(es)| == |multiset(F.Keys)| == 1;
    SumOverRemove(F, F.Keys, n);
    assert F.Keys - {n} == {};
    assert Total(F) == w;
    var e := es[0];
    assert e in es;
    assert e.node == n;
    WholePercent(w);
    assert e.percent == 100.0;
    assert es == [e];
  }

  /** With no ticket, the start node is the only position, at 100 percent. */
  lemma NoTicketsRanking(g: Graph, start: string, es: seq<Entry>)
    requires IsRanking(Propagate(g, map[start := 1], []), es)
    ensures es == [Entry(start, 100.0)]
  {
    SingleRanking(start, 1, es);
  }
}

=== FILE: graph.dfy ===
/**
 The parsed graph document: only the JSON shapes the estimator inspects.
 */
module Json {
  import opened Text

  /** A JSON value. Numbers are taken to be integers. */
  datatype Json =
    | JNull
    | JBool(b: bool)
    | JNumber(n: int)
    | JString(s: string)
    | JArray(items: seq<Json>)
    | JObject(fields: map<string, Json>)

  /** The text an array element yields through QVariant::toString: strings
      as they are, booleans as "true"/"false", and the empty text for null,
      arrays and objects. A number is a double there; the model writes the
      integer in plain decimal, which is what node ids of the graph file
      print as. */
  function ToText(v: Json): (r: string)
    ensures v.JString? ==> r == v.s
    ensures v.JNull? || v.JArray? || v.JObject? ==> r == []
  {
    match v
    case JString(s) => s
    case JNumber(n) => IntToDecimal(n)
    case JBool(b) => if b then "true" else "false"
    case _ => ""
  }

  /** A listed number reads back, through `toInt`, as the same number. */
  lemma NumberTextRoundTrip(n: int)
    ensures ToInt(ToText(JNumber(n))) == n
  {
    IntToDecimalRoundTrip(n);
  }
}

/**
 The transport graph: a JSON object mapping a node id to an object that maps
 a transport mode to an array of neighbour ids. Lookups never fail; the
 consistency scan after loading only reports.
 */
module TransportGraph {
  import opened Text
  import opened Json

  /** The members of the graph document's root object. */
  type Graph = map<string, Json>

  /** The four mode names the loading scan looks at. */
  const Modes: set<string> := {"taxi", "bus", "train", "black"}

  /** `node` maps to an object in which `mode` maps to an array. */
  predicate HasLinks(g: Graph, node: string, mode: string) {
    node in g && g[node].JObject? && mode in g[node].fields && g[node].fields[mode].JArray?
  }

  function Links(g: Graph, node: string, mode: string): seq<Json>
    requires HasLinks(g, node, mode)
  {
    g[node].fields[mode].items
  }

  /** The texts of the elements of a list. */
  function Texts(items: seq<Json>): (r: set<string>)
    ensures |r| <= |items|
    ensures forall x :: x in r <==> exists k :: 0 <= k < |items| && ToText(items[k]) == x
  {
    if |items| == 0 then {}
    else
      var rest := Texts(items[1..]);
      TextsCons(items, rest);
      {ToText(items[0])} + rest
  }

  /** The texts of a non-empty list: its first element's text and the texts
      of the rest. */
  lemma TextsCons(items: seq<Json>, rest: set<string>)
    requires |items| > 0
    requires forall x :: x in rest <==> exists k :: 0 <= k < |items[1..]| && ToText(items[1..][k]) == x
    ensures forall x :: x in {ToText(items[0])} + rest <==> exists k :: 0 <= k < |items| && ToText(items[k]) == x
  {
    var r := {ToText(items[0])} + rest;
    forall x | x in r
      ensures exists k :: 0 <= k < |items| && ToText(items[k]) == x
    {
      if x != ToText(items[0]) {
        var k :| 0 <= k < |items[1..]| && ToText(items[1..][k]) == x;
        assert items[1..][k] == items[k + 1];
      }
    }
    forall x, k | 0 <= k < |items| && ToText(items[k]) == x
      ensures x in r
    {
      if k > 0 {
        assert items[1..][k - 1] == items[k];
      }
    }
  }

  /** getConnections: the neighbours listed for `node` under `mode`, with
      duplicates collapsed; the empty set when the node is missing or not an
      object, or the mode is missing or not an array. */
  function Connections(g: Graph, node: string, mode: string): (r: set<string>)
    ensures !HasLinks(g, node, mode) ==> r == {}
    ensures HasLinks(g, node, mode) ==> |r| <= |Links(g, node, mode)|
    ensures HasLinks(g, node, mode) ==>
      forall x :: x in r <==> exists k :: 0 <= k < |Links(g, node, mode)| && ToText(Links(g, node, mode)[k]) == x
  {
    if HasLinks(g, node, mode) then Texts(Links(g, node, mode)) else {}
  }

  /** The nodes one ticket can take the hidden player to from `node`: the
      ticket's own list, and for "black" also the taxi, bus and train
      lists. */
  function Reach(g: Graph, node: string, ticket: string): (r: set<string>)
    ensures !(node in g && g[node].JObject?) ==> r == {}
    ensures Connections(g, node, ticket) <= r
    ensures ticket != "black" ==> r <= Connections(g, node, ticket)
  {
    if ticket == "black" then
      Connections(g, node, "black") + Connections(g, node, "taxi")
      + Connections(g, node, "bus") + Connections(g, node, "train")
    else
      Connections(g, node, ticket)
  }

  /** A black ticket reaches exactly what some listed mode reaches. */
  lemma BlackReachesEveryMode(g: Graph, node: string, x: string)
    ensures x in Reach(g, node, "black") <==> exists m :: m in Modes && x in Connections(g, node, m)
  {
    if x in Connections(g, node, "taxi") {
      assert "taxi" in Modes;
    } else if x in Connections(g, node, "bus") {
      assert "bus" in Modes;
    } else if x in Connections(g, node, "train") {
      assert "train" in Modes;
    }
  }

  /** The ids the loading scan visits: the decimal texts of 1 to 198. */
  predicate IsCheckedId(s: string) {
    exists i :: 1 <= i < 199 && s == NatToDecimal(i)
  }

  /** A warning of the loading scan. */
  datatype Diagnostic =
    | ReflexiveEdge(node: string, mode: string)
    | MissingBackEdge(node: string, mode: string, neighbour: string)

  /** The defect a warning names is present in the graph: the node lists
      itself under the mode, or a neighbour it lists under the mode does not
      list it back. */
  predicate Defect(g: Graph, d: Diagnostic) {
    match d
    case ReflexiveEdge(node, mode) => node in Connections(g, node, mode)
    case MissingBackEdge(node, mode, neighbour) =>
      neighbour in Connections(g, node, mode) && node !in Connections(g, neighbour, mode)
  }

  /** The warnings the scan emits: defects at a visited node under one of
      the four modes. */
  predicate Flagged(g: Graph, d: Diagnostic) {
    IsCheckedId(d.node) && d.mode in Modes && Defect(g, d)
  }

  /** The visited id range stops short of 199. */
  lemma Id199NotChecked()
    ensures !IsCheckedId("199")
    ensures IsCheckedId("1") && IsCheckedId("198")
  {
    forall i | 1 <= i < 199
      ensures "199" != NatToDecimal(i)
    {
      assert DigitsValue(NatToDecimal(i)) == i;
      assert DigitsValue("199") == 199;
    }
    assert NatToDecimal(1) == "1";
    assert NatToDecimal(198) == "198";
  }

  /** Every listed edge of a visited node is symmetric and irreflexive. */
  ghost predicate ConsistentOnCheckedIds(g: Graph) {
    forall node, mode, neighbour ::
      IsCheckedId(node) && mode in Modes && neighbour in Connections(g, node, mode)
      ==> neighbour != node && node in Connections(g, neighbour, mode)
  }

  /** The scan is silent exactly on graphs whose visited nodes have only
      symmetric, irreflexive edges. */
  lemma NoDiagnosticsIffConsistent(g: Graph)
    ensures (forall d :: !Flagged(g, d)) <==> ConsistentOnCheckedIds(g)
  {
    if forall d :: !Flagged(g, d) {
      forall node, mode, neighbour |
        IsCheckedId(node) && mode in Modes && neighbour in Connections(g, node, mode)
        ensures neighbour != node && node in Connections(g, neighbour, mode)
      {
        assert !Flagged(g, ReflexiveEdge(node, mode));
        assert !Flagged(g, MissingBackEdge(node, mode, neighbour));
      }
    }
  }

  /** The scan of one node under one mode: a reflexive-edge warning if the
      node lists itself, then one warning per listed neighbour that does not
      list the node back, in unspecified order. */
  method CheckMode(g: Graph, me: string, mode: string) returns (diags: seq<Diagnostic>)
    ensures forall d :: d in diags <==> d.node == me && d.mode == mode && Defect(g, d)
    ensures NoRepeats(diags)
  {
    var conns := Connections(g, me, mode);
    diags := if me in conns then [ReflexiveEdge(me, mode)] else [];
    var others := conns;
    while others != {}
      invariant others <= conns
      invariant forall d :: d in diags <==>
        d.node == me && d.mode == mode && Defect(g, d) && (d.ReflexiveEdge? || d.neighbour !in others)
      invariant NoRepeats(diags)
    {
      var them :| them in others;
      if me !in Connections(g, them, mode) {
        AppendDisjoint(diags, [MissingBackEdge(me, mode, them)]);
        diags := diags + [MissingBackEdge(me, mode, them)];
      }
      others := others - {them};
    }
  }

  /** The scan of one node under each of the four modes, in unspecified
      mode order. */
  method CheckNode(g: Graph, me: string) returns (diags: seq<Diagnostic>)
    ensures forall d :: d in diags <==> d.node == me && d.mode in Modes && Defect(g, d)
    ensures NoRepeats(diags)
  {
    diags := [];
    var pending := Modes;
    while pending != {}
      invariant pending <= Modes
      invariant forall d :: d in diags <==> d.node == me && d.mode in Modes - pending && Defect(g, d)
      invariant NoRepeats(diags)
    {
      var mode :| mode in pending;
      var found := CheckMode(g, me, mode);
      AppendDisjoint(diags, found);
      diags := diags + found;
      pending := pending - {mode};
    }
  }

  /** The consistency scan run after loading: the ids 1 to 198 in order. It
      reports and changes nothing. */
  method CheckConsistency(g: Graph) returns (diags: seq<Diagnostic>)
    ensures forall d :: d in diags <==> Flagged(g, d)
    ensures NoRepeats(diags)
  {
    diags := [];
    var i := 1;
    while i < 199
      invariant 1 <= i <= 199
      invariant forall d :: d in diags <==> d.mode in Modes && Defect(g, d) && VisitedBefore(d.node, i)
      invariant NoRepeats(diags)
    {
      var me := NatToDecimal(i);
      var found := CheckNode(g, me);
      NotVisitedYet(i);
      AppendDisjoint(diags, found);
      diags := diags + found;
      forall node | VisitedBefore(node, i + 1)
        ensures VisitedBefore(node, i) || node == me
      {
        var j :| 1 <= j < i + 1 && node == NatToDecimal(j);
        if j < i {
          assert VisitedBefore(node, i);
        }
      }
      i := i + 1;
    }
    assert forall node :: VisitedBefore(node, 199) == IsCheckedId(node);
  }

  /** `node` is the text of an id from 1 to below `i`. */
  ghost predicate VisitedBefore(node: string, i: int) {
    exists j :: 1 <= j < i && node == NatToDecimal(j)
  }

  /** The id about to be visited has not been visited before. */
  lemma NotVisitedYet(i: nat)
    ensures !VisitedBefore(NatToDecimal(i), i)
  {
    forall j | 1 <= j < i
      ensures NatToDecimal(i) != NatToDecimal(j)
    {
      assert DigitsValue(NatToDecimal(j)) == j;
    }
  }

  /** No warning is reported twice. */
  predicate NoRepeats(ds: seq<Diagnostic>) {
    forall i, j :: 0 <= i < j < |ds| ==> ds[i] != ds[j]
  }

  /** Two repeat-free lists with no warning in common join into a
      repeat-free list. */
  lemma AppendDisjoint(a: seq<Diagnostic>, b: seq<Diagnostic>)
    requires NoRepeats(a) && NoRepeats(b)
    requires forall d :: d in b ==> d !in a
    ensures NoRepeats(a + b)
  {
    var c := a + b;
    forall i, j | 0 <= i < j < |c|
      ensures c[i] != c[j]
    {
      if i < |a| && j >= |a| {
        assert c[j] == b[j - |a|];
        assert c[i] in a;
      } else if i >= |a| {
        assert c[i] == b[i - |a|] && c[j] == b[j - |a|];
      }
    }
  }

  /** Where the graph document comes from. */
  datatype Document = Unreadable | Malformed | Parsed(root: Json)

  /** The outcome of loading: the load failed, which switches the Calculate
      button off until the next edit of an entry and leaves the graph empty,
      or the graph is kept together with the scan's warnings. */
  datatype Loaded = AnalysisDisabled | Ready(graph: Graph, diagnostics: seq<Diagnostic>)

  /** initializeGraph: an unreadable or malformed document, or one whose root
      is not an object, disables analysis; otherwise the graph is kept
      whatever the scan reports. */
  method InitializeGraph(doc: Document) returns (r: Loaded)
    ensures r.AnalysisDisabled? <==> !(doc.Parsed? && doc.root.JObject?)
    ensures r.Ready? ==> r.graph == doc.root.fields
    ensures r.Ready? ==> forall d :: d in r.diagnostics <==> Flagged(r.graph, d)
  {
    if !(doc.Parsed? && doc.root.JObject?) {
      return AnalysisDisabled;
    }
    var g := doc.root.fields;
    var diags := CheckConsistency(g);
    r := Ready(g, diags);
  }
}

=== FILE: scenarios.dfy ===
/**
 Worked examples of the estimator on a three-node board: node 1 has taxi routes
 to 2 and 3, and both of those have a taxi route back to 1.
 */
module Scenarios {
  import opened Json
  import opened TransportGraph
  import opened Frontier

  function Board(): Graph {
    map[
      "1" := JObject(map["taxi" := JArray([JString("2"), JString("3")])]),
      "2" := JObject(map["taxi" := JArray([JString("1")])]),
      "3" := JObject(map["taxi" := JArray([JString("1")])])
    ]
  }

  lemma TextsOfNames(a: string, b: string)
    ensures Texts([JString(a)]) == {a}
    ensures Texts([JString(a), JString(b)]) == {a, b}
  {
    assert [JString(a)][1..] == [];
    assert [JString(a), JString(b)][1..] == [JString(b)];
    assert [JString(b)][1..] == [];
  }

  lemma BoardRoutes()
    ensures Reach(Board(), "1", "taxi") == {"2", "3"}
    ensures Reach(Board(), "2", "taxi") == {"1"}
    ensures Reach(Board(), "3", "taxi") == {"1"}
  {
    TextsOfNames("2", "3");
    TextsOfNames("1", "1");
    assert Links(Board(), "1", "taxi") == [JString("2"), JString("3")];
    assert Links(Board(), "2", "taxi") == [JString("1")];
    assert Links(Board(), "3", "taxi") == [JString("1")];
  }

  /** A taxi from 1, whatever its weight, reaches 2 and 3 once each. */
  lemma FromOne(g: Graph, w: nat)
    requires Reach(g, "1", "taxi") == {"2", "3"}
    ensures NextFrontier(g, map["1" := w], "taxi") == map["2" := 1, "3" := 1]
  {
    SingleSourceStep(g, "1", w, "taxi");
  }

  /** One taxi from 1: nodes 2 and 3, one source each. */
  lemma OneTaxi()
    ensures Propagate(Board(), map["1" := 1], ["taxi"]) == map["2" := 1, "3" := 1]
  {
    BoardRoutes();
    FromOne(Board(), 1);
  }

  /** Two nodes of weight 1 rank at 50 percent each. */
  lemma EvenPairRanking(a: string, b: string, es: seq<Entry>)
    requires a != b
    requires IsRanking(map[a := 1, b := 1], es)
    ensures |es| == 2
    ensures es[0].percent == 50.0 && es[1].percent == 50.0
    ensures {es[0].node, es[1].node} == {a, b}
  {
    var F: Frontier := map[a := 1, b := 1];
    SumOverRemove(F, F.Keys, a);
    SumOverRemove(F, F.Keys - {a}, b);
    assert F.Keys - {a} - {b} == {};
    assert Total(F) == 2;
    assert Percent(1, 2) == 50.0;
    assert |NodeBag(es)| == |multiset(F.Keys)| == 2;
    assert es[0] in es && es[1] in es;
    assert es[0].node in NodeBag(es) && es[1].node in NodeBag(es);
  }

  /** One taxi from 1 on the board ranks 2 and 3 at 50 percent each. */
  lemma OneTaxiRanking(es: seq<Entry>)
    requires IsRanking(Propagate(Board(), map["1" := 1], ["taxi"]), es)
    ensures |es| == 2 && es[0].percent == 50.0 && es[1].percent == 50.0
    ensures {es[0].node, es[1].node} == {"2", "3"}
  {
    OneTaxi();
    EvenPairRanking("2", "3", es);
  }

  /** Node 99 is not on the board: one taxi leaves no position. */
  lemma UnknownStart()
    ensures Propagate(Board(), map["99" := 1], ["taxi"]) == map[]
  {
    UnknownStartLeavesNothing(Board(), "99", ["taxi"]);
  }
}

=== FILE: text.dfy ===
/**
 String helpers that mirror the few QString operations the estimator relies on:
 `trimmed`, `split(",")`, removal of a `^0*` prefix, `QString::number` for a
 non-negative integer and `toInt` in base 10. Strings are `seq<char>`.
 */
module Text {

  /** QChar::isSpace: the controls U+0009..U+000D and U+0085, and every
      character of the Unicode separator categories (Zs, Zl, Zp). */
  predicate IsSpace(c: char) {
    var n := c as int;
    || (9 <= n <= 13)
    || n == 0x20 || n == 0x85 || n == 0xA0 || n == 0x1680
    || (0x2000 <= n <= 0x200A)
    || n == 0x2028 || n == 0x2029 || n == 0x202F || n == 0x205F || n == 0x3000
  }

  predicate IsZeroChar(c: char) {
    c == '0'
  }

  /** The longest suffix of `s` whose first character fails `p`. */
  function DropWhile(s: string, p: char -> bool): (r: string)
    ensures |r| <= |s|
    ensures |r| > 0 ==> !p(r[0])
    decreases |s|
  {
    if |s| > 0 && p(s[0]) then DropWhile(s[1..], p) else s
  }

  /** What `DropWhile` removes is a prefix of characters satisfying `p`. */
  lemma {:induction false} DropWhileSuffix(s: string, p: char -> bool)
    ensures DropWhile(s, p) == s[|s| - |DropWhile(s, p)|..]
    ensures forall i :: 0 <= i < |s| - |DropWhile(s, p)| ==> p(s[i])
    decreases |s|
  {
    if |s| > 0 && p(s[0]) {
      DropWhileSuffix(s[1..], p);
    }
  }

  /** The longest prefix of `s` whose last character fails `p`. */
  function DropLastWhile(s: string, p: char -> bool): (r: string)
    ensures |r| <= |s|
    ensures |r| > 0 ==> !p(r[|r| - 1])
    decreases |s|
  {
    if |s| > 0 && p(s[|s| - 1]) then DropLastWhile(s[..|s| - 1], p) else s
  }

  /** What `DropLastWhile` removes is a suffix of characters satisfying
      `p`. */
  lemma {:induction false} DropLastWhilePrefix(s: string, p: char -> bool)
    ensures DropLastWhile(s, p) == s[..|DropLastWhile(s, p)|]
    ensures forall i :: |DropLastWhile(s, p)| <= i < |s| ==> p(s[i])
    decreases |s|
  {
    if |s| > 0 && p(s[|s| - 1]) {
      DropLastWhilePrefix(s[..|s| - 1], p);
    }
  }

  /** QString::trimmed: white space removed from both ends. */
  function Trim(s: string): (r: string)
    ensures |r| <= |s|
    ensures |r| > 0 ==> !IsSpace(r[0]) && !IsSpace(r[|r| - 1])
  {
    DropLastWhilePrefix(DropWhile(s, IsSpace), IsSpace);
    DropLastWhile(DropWhile(s, IsSpace), IsSpace)
  }

  /** Trimming removes white space from the two ends and nothing else: the
      result is a slice of the input with only white space on either side. */
  lemma TrimIsInnerSlice(s: string)
    ensures exists i, j ::
              && 0 <= i <= j <= |s| && Trim(s) == s[i..j]
              && (forall k :: 0 <= k < i ==> IsSpace(s[k]))
              && (forall k :: j <= k < |s| ==> IsSpace(s[k]))
  {
    var i, j := DropBothWindow(s, IsSpace);
    assert Trim(s) == s[i..j];
  }

  /** The window `s[i..j]` that dropping a leading and a trailing run of
      `p` keeps. */
  lemma DropBothWindow(s: string, p: char -> bool) returns (i: nat, j: nat)
    ensures i <= j <= |s| && DropLastWhile(DropWhile(s, p), p) == s[i..j]
    ensures forall k :: 0 <= k < i ==> p(s[k])
    ensures forall k :: j <= k < |s| ==> p(s[k])
  {
    var d := DropWhile(s, p);
    DropWhileSuffix(s, p);
    DropLastWhilePrefix(d, p);
    var r := DropLastWhile(d, p);
    i := |s| - |d|;
    j := i + |r|;
    assert d == s[i..] && r == d[..|r|];
    forall k | j <= k < |s|
      ensures p(s[k])
    {
      assert s[k] == d[k - i];
    }
  }

  /** `remove(QRegExp("^0*"))`: every leading '0' removed. */
  function StripLeadingZeros(s: string): (r: string)
    ensures |r| <= |s| && r == s[|s| - |r|..]
    ensures forall i :: 0 <= i < |s| - |r| ==> s[i] == '0'
    ensures |r| > 0 ==> r[0] != '0'
  {
    DropWhileSuffix(s, IsZeroChar);
    DropWhile(s, IsZeroChar)
  }

  /** Zeros in front of a string are removed with its own leading zeros. */
  lemma {:induction false} StripLeadingZerosPrefix(z: string, s: string)
    requires forall i :: 0 <= i < |z| ==> z[i] == '0'
    ensures StripLeadingZeros(z + s) == StripLeadingZeros(s)
    decreases |z|
  {
    if |z| > 0 {
      assert (z + s)[1..] == z[1..] + s;
      StripLeadingZerosPrefix(z[1..], s);
    } else {
      assert z + s == s;
    }
  }

  /** A string with no white space at either end is its own trimmed form. */
  lemma TrimFixed(s: string)
    requires |s| > 0 ==> !IsSpace(s[0]) && !IsSpace(s[|s| - 1])
    ensures Trim(s) == s
  {
  }

  /** A leading white-space character does not survive trimming. */
  lemma TrimLeadingSpace(c: char, s: string)
    requires IsSpace(c)
    ensures Trim([c] + s) == Trim(s)
  {
    assert ([c] + s)[1..] == s;
  }

  /** A trailing white-space character does not survive trimming. */
  lemma TrimTrailingSpace(s: string, c: char)
    requires IsSpace(c)
    ensures Trim(s + [c]) == Trim(s)
  {
    var t := s + [c];
    var d := DropWhile(t, IsSpace);
    DropWhileSuffix(t, IsSpace);
    DropWhileSuffix(s, IsSpace);
    if |d| == 0 {
      assert forall k :: 0 <= k < |s| ==> IsSpace(s[k]) by {
        forall k | 0 <= k < |s| ensures IsSpace(s[k]) { assert t[k] == s[k]; }
      }
      AllSpaceTrimsEmpty(s);
    } else {
      DropWhileSnoc(s, c, IsSpace);
      assert d[..|d| - 1] == DropWhile(s, IsSpace);
    }
  }

  /** A text of white space only trims to nothing. */
  lemma {:induction false} AllSpaceTrimsEmpty(s: string)
    requires forall k :: 0 <= k < |s| ==> IsSpace(s[k])
    ensures Trim(s) == []
  {
    AllSatisfyDropped(s, IsSpace);
  }

  lemma {:induction false} AllSatisfyDropped(s: string, p: char -> bool)
    requires forall k :: 0 <= k < |s| ==> p(s[k])
    ensures DropWhile(s, p) == []
    decreases |s|
  {
    if |s| > 0 {
      AllSatisfyDropped(s[1..], p);
    }
  }

  /** Dropping a leading run from a text with one more character, when some
      character of the text fails `p`, appends that character. */
  lemma {:induction false} DropWhileSnoc(s: string, c: char, p: char -> bool)
    requires |DropWhile(s + [c], p)| > 0
    ensures DropWhile(s + [c], p) == DropWhile(s, p) + [c]
    decreases |s|
  {
    if |s| == 0 {
      assert s + [c] == [c];
    } else {
      assert (s + [c])[1..] == s[1..] + [c];
      if p(s[0]) {
        DropWhileSnoc(s[1..], c, p);
      }
    }
  }

  /** Joins `parts` with `sep` between neighbours (QStringList::join). */
  function Join(parts: seq<string>, sep: string): string
    requires |parts| >= 1
  {
    if |parts| == 1 then parts[0] else parts[0] + sep + Join(parts[1..], sep)
  }

  /** QString::split with a one-character separator, empty parts kept: the
      pieces between consecutive separators, in order. */
  function Split(s: string, sep: char): (parts: seq<string>)
    ensures |parts| >= 1
    ensures forall i :: 0 <= i < |parts| ==> sep !in parts[i]
    decreases |s|
  {
    if |s| == 0 then [""]
    else
      var rest := Split(s[1..], sep);
      if s[0] == sep then [""] + rest else [[s[0]] + rest[0]] + rest[1..]
  }

  /** Joining the pieces with the separator gives back the split string. */
  lemma {:induction false} JoinSplit(s: string, sep: char)
    ensures Join(Split(s, sep), [sep]) == s
    decreases |s|
  {
    if |s| > 0 {
      JoinSplit(s[1..], sep);
      var rest := Split(s[1..], sep);
      if s[0] != sep {
        JoinCons(s[0], rest, [sep]);
      }
      assert [s[0]] + s[1..] == s;
    }
  }

  /** Prefixing the first part prefixes the joined string. */
  lemma JoinCons(c: char, parts: seq<string>, sep: string)
    requires |parts| >= 1
    ensures Join([[c] + parts[0]] + parts[1..], sep) == [c] + Join(parts, sep)
  {
    var q := [[c] + parts[0]] + parts[1..];
    if |parts| > 1 {
      assert q[1..] == parts[1..];
    }
  }

  /** A string without the separator is a single piece. */
  lemma {:induction false} SplitNoSeparator(s: string, sep: char)
    requires sep !in s
    ensures Split(s, sep) == [s]
    decreases |s|
  {
    if |s| > 0 {
      SplitNoSeparator(s[1..], sep);
      assert [s[0]] + s[1..] == s;
    }
  }

  /** Splitting distributes over a separator: the pieces of `a` followed by
      the pieces of `b`. */
  lemma {:induction false} SplitAtSeparator(a: string, b: string, sep: char)
    ensures Split(a + [sep] + b, sep) == Split(a, sep) + Split(b, sep)
    decreases |a|
  {
    var s := a + [sep] + b;
    if |a| == 0 {
      assert s[1..] == b;
    } else {
      assert s[1..] == a[1..] + [sep] + b;
      SplitAtSeparator(a[1..], b, sep);
    }
  }

  /** Splitting a joined list gives back the list when no part holds the
      separator. */
  lemma {:induction false} SplitJoin(parts: seq<string>, sep: char)
    requires |parts| >= 1
    requires forall i :: 0 <= i < |parts| ==> sep !in parts[i]
    ensures Split(Join(parts, [sep]), sep) == parts
    decreases |parts|
  {
    SplitNoSeparator(parts[0], sep);
    if |parts| > 1 {
      SplitJoin(parts[1..], sep);
      SplitAtSeparator(parts[0], Join(parts[1..], [sep]), sep);
      assert [parts[0]] + parts[1..] == parts;
    }
  }

  /** Every piece of a split, trimmed: the ticket and position entries are
      both read this way. */
  function TrimAll(parts: seq<string>): (r: seq<string>)
    ensures |r| == |parts|
    ensures forall i :: 0 <= i < |parts| ==> r[i] == Trim(parts[i])
  {
    if |parts| == 0 then [] else [Trim(parts[0])] + TrimAll(parts[1..])
  }

  /** The comma-separated, trimmed fields of an entry. */
  function Fields(s: string): (r: seq<string>)
    ensures |r| >= 1
  {
    TrimAll(Split(s, ','))
  }

  /** The fields of `a + "," + b` are the trimmed `a` followed by the fields
      of `b`, when `a` holds no comma. */
  lemma FieldsAtComma(a: string, b: string)
    requires ',' !in a
    ensures Fields(a + "," + b) == [Trim(a)] + Fields(b)
  {
    SplitAtSeparator(a, b, ',');
    SplitNoSeparator(a, ',');
  }

  /** The fields on either side of a comma, one after the other. */
  lemma FieldsConcat(a: string, b: string)
    ensures Fields(a + "," + b) == Fields(a) + Fields(b)
  {
    SplitAtSeparator(a, b, ',');
    TrimAllConcat(Split(a, ','), Split(b, ','));
  }

  lemma {:induction false} TrimAllConcat(x: seq<string>, y: seq<string>)
    ensures TrimAll(x + y) == TrimAll(x) + TrimAll(y)
    decreases |x|
  {
    if |x| == 0 {
      assert x + y == y;
    } else {
      assert (x + y)[1..] == x[1..] + y;
      TrimAllConcat(x[1..], y);
    }
  }

  /** A space right after a comma belongs to the next field and is trimmed
      away. */
  lemma FieldsAfterSpace(s: string)
    ensures Fields(" " + s) == Fields(s)
  {
    var p := Split(s, ',');
    var q := Split(" " + s, ',');
    assert (" " + s)[1..] == s;
    assert q == [[' '] + p[0]] + p[1..];
    TrimLeadingSpace(' ', p[0]);
  }

  predicate IsDigit(c: char) {
    '0' <= c <= '9'
  }

  predicate IsDigits(s: string) {
    forall i :: 0 <= i < |s| ==> IsDigit(s[i])
  }

  function DigitValue(c: char): (d: nat)
    requires IsDigit(c)
    ensures d < 10
  {
    (c as int) - ('0' as int)
  }

  function DigitChar(d: nat): (c: char)
    requires d < 10
    ensures IsDigit(c) && DigitValue(c) == d
  {
    (('0' as int) + d) as char
  }

  /** The decimal value of a digit string; the empty string is worth 0. */
  function DigitsValue(s: string): nat
    requires IsDigits(s)
    decreases |s|
  {
    if |s| == 0 then 0 else DigitsValue(s[..|s| - 1]) * 10 + DigitValue(s[|s| - 1])
  }

  /** QString::number for a non-negative integer: the shortest decimal
      text, which reads back as the same number. */
  function NatToDecimal(n: nat): (s: string)
    ensures |s| > 0 && IsDigits(s)
    ensures DigitsValue(s) == n
    ensures |s| > 1 ==> s[0] != '0'
    ensures n > 0 ==> s[0] != '0'
    decreases n
  {
    if n < 10 then [DigitChar(n)]
    else
      var s := NatToDecimal(n / 10) + [DigitChar(n % 10)];
      assert s[..|s| - 1] == NatToDecimal(n / 10);
      s
  }

  /** QString::number for any integer. */
  function IntToDecimal(n: int): string
  {
    if n >= 0 then NatToDecimal(n) else "-" + NatToDecimal(-n)
  }

  /** Zeros in front of a digit string do not change its value. */
  lemma {:induction false} LeadingZerosValue(z: string, s: string)
    requires forall i :: 0 <= i < |z| ==> z[i] == '0'
    requires IsDigits(s)
    ensures IsDigits(z + s)
    ensures DigitsValue(z + s) == DigitsValue(s)
    decreases |s|, |z|
  {
    if |s| == 0 {
      assert z + s == z;
      if |z| > 0 {
        assert z[..|z| - 1] + s == z[..|z| - 1];
        LeadingZerosValue(z[..|z| - 1], s);
      }
    } else {
      assert (z + s)[..|z + s| - 1] == z + s[..|s| - 1];
      LeadingZerosValue(z, s[..|s| - 1]);
    }
  }

  /** Removing leading zeros keeps the value of a digit string. */
  lemma StripLeadingZerosValue(s: string)
    requires IsDigits(s)
    ensures IsDigits(StripLeadingZeros(s))
    ensures DigitsValue(StripLeadingZeros(s)) == DigitsValue(s)
  {
    var r := StripLeadingZeros(s);
    var n := |s| - |r|;
    var z := s[..n];
    assert r == s[n..];
    assert z + r == s;
    assert forall i :: 0 <= i < |z| ==> z[i] == '0';
    forall i | 0 <= i < |r|
      ensures IsDigit(r[i])
    {
      assert r[i] == s[n + i];
    }
    LeadingZerosValue(z, r);
  }

  /** A base-10 numeral: at least one ASCII digit, optionally after a sign. */
  predicate IsNumeral(t: string) {
    || (|t| > 0 && IsDigits(t))
    || (|t| > 1 && (t[0] == '+' || t[0] == '-') && IsDigits(t[1..]))
  }

  /** QString::toInt in base 10: surrounding white space is skipped, then an
      optional sign and at least one ASCII digit; any other text converts to
      0. Integers are unbounded here. */
  function ToInt(s: string): (r: int)
    ensures |Trim(s)| > 0 && IsDigits(Trim(s)) ==> r == DigitsValue(Trim(s))
    ensures Trim(s) == [] ==> r == 0
    ensures r < 0 ==> |Trim(s)| > 1 && Trim(s)[0] == '-'
    ensures |Trim(s)| > 1 && Trim(s)[0] == '+' && IsDigits(Trim(s)[1..]) ==> r == DigitsValue(Trim(s)[1..])
    ensures !IsNumeral(Trim(s)) ==> r == 0
  {
    var t := Trim(s);
    if |t| > 0 && IsDigits(t) then DigitsValue(t)
    else if |t| > 1 && t[0] == '+' && IsDigits(t[1..]) then DigitsValue(t[1..])
    else if |t| > 1 && t[0] == '-' && IsDigits(t[1..]) then -(DigitsValue(t[1..]) as int)
    else 0
  }

  /** The text QString::number gives for an integer converts back to it. */
  lemma IntToDecimalRoundTrip(n: int)
    ensures ToInt(IntToDecimal(n)) == n
  {
    if n >= 0 {
      TrimFixed(NatToDecimal(n));
    } else {
      var d := NatToDecimal(-n);
      var t := "-" + d;
      assert !IsSpace(t[0]) && !IsSpace(t[|t| - 1]);
      TrimFixed(t);
      assert t[1..] == d;
      assert !IsDigits(t);
    }
  }
}

=== FILE: tickets.dfy ===
/**
 The ticket entry of the main window: the validator's language, the way the
 calculation reads the entry into a ticket list, and the append performed by
 the four ticket buttons.
 */
module Tickets {
  import opened Text
  import opened CommaList

  /** The validator of the ticket entry accepts exactly the lists
      `(taxi|bus|train|black)(, ?(taxi|bus|train|black))*`. */
  predicate IsTicketEntry(s: string) {
    Accepts(s, TicketToken)
  }

  /** The queue of tickets the calculation processes: the entry split at
      every comma, each piece trimmed, in their original order. Any text is
      read this way; nothing here checks the pieces. */
  function ParseTickets(text: string): (tickets: seq<string>)
    ensures |tickets| >= 1
  {
    Fields(text)
  }

  /** The tickets keep the order of the entry: the text before a comma
      gives the first tickets, the text after it the rest. */
  lemma TicketsInOrder(a: string, b: string)
    ensures ParseTickets(a + "," + b) == ParseTickets(a) + ParseTickets(b)
  {
    FieldsConcat(a, b);
  }

  /** A ticket button: append the ticket (after ", " unless the entry is
      empty) and keep the result only when the validator accepts it. */
  function AppendTicket(entry: string, ticket: string): (r: string)
    ensures entry == [] ==> r == (if IsTicketEntry(ticket) then ticket else [])
    ensures entry != [] ==>
      r == (if IsTicketEntry(entry) && IsTicketEntry(ticket) then entry + ", " + ticket else entry)
  {
    var candidate := if entry == [] then ticket else entry + ", " + ticket;
    AcceptsJoin(entry, ticket, TicketToken);
    if IsTicketEntry(candidate) then candidate else entry
  }

  /** From an empty or accepted entry, every ticket button commits, the entry
      stays accepted, and the ticket list read from it grows by exactly that
      ticket. */
  lemma AppendTicketGrows(entry: string, ticket: string)
    requires entry == [] || IsTicketEntry(entry)
    requires IsTicketToken(ticket)
    ensures AppendTicket(entry, ticket) == (if entry == [] then ticket else entry + ", " + ticket)
    ensures IsTicketEntry(AppendTicket(entry, ticket))
    ensures ParseTickets(AppendTicket(entry, ticket))
            == (if entry == [] then [] else ParseTickets(entry)) + [ticket]
  {
    ItemAccepted(TicketToken, ticket);
    ItemIsPlain(TicketToken, ticket);
    SplitNoSeparator(ticket, ',');
    assert ParseTickets(ticket) == [ticket];
    if entry != [] {
      assert entry + ", " + ticket == entry + "," + (" " + ticket);
      FieldsConcat(entry, " " + ticket);
      FieldsAfterSpace(ticket);
    }
  }

  /** Every ticket read from an accepted entry is one of the four ticket
      names. */
  lemma EntryTicketsAreTokens(entry: string)
    requires IsTicketEntry(entry)
    ensures forall k :: 0 <= k < |ParseTickets(entry)| ==> IsTicketToken(ParseTickets(entry)[k])
  {
    AcceptedFieldsAreItems(entry, TicketToken);
  }

  /** Joining ticket names with ", " gives an accepted entry that reads back
      as the same tickets, in order. */
  lemma TicketsRoundTrip(tickets: seq<string>)
    requires |tickets| >= 1
    requires forall k :: 0 <= k < |tickets| ==> IsTicketToken(tickets[k])
    ensures IsTicketEntry(Join(tickets, ", "))
    ensures ParseTickets(Join(tickets, ", ")) == tickets
  {
    JoinAccepted(tickets, TicketToken);
    JoinFields(tickets, TicketToken);
  }
}
